=== FILE: README.md ===
# fbp-protocol conformance matcher, modelled in Dafny

This project models the scenario-matching engine of the fbp-protocol
conformance suite (`src/WebSocket.js`). The suite connects to a flow-based
programming runtime over a WebSocket, sends protocol commands, and checks the
runtime's replies against an ordered queue of expected packets.

The model covers these parts:

- **Values** — JSON values, and JavaScript `delete` on them.
- **Wire** — the outbound encoding of `send`, which adds the shared secret to
  the payload and at the top level. It also covers the inbound checks of the
  `receive` listener (a text frame, parseable JSON, string `protocol` and
  `command`, a payload from which `secret` can be deleted), the schema id
  `protocol/output/command`, and `messageMatches`.
- **Normalization** — the deletion of `time`/`running` (`network/started`),
  `time`/`uptime` (`network/stopped`) and `stack` (any `error`) from both
  payloads. The expectation's payload secret and top-level secret are deleted too.
- **Matcher** — one invocation of the listener. After the screening, it does
  exactly one thing:
  - bail out on an unexpected runtime `error`;
  - ignore an unrelated packet when extra packets are tolerated;
  - pop the front expectation and require deep equality of the normalised payloads;
  - report success when the queue has drained.

  The outcome is one of `Fail`, `Ignore(queue)`, `Continue(queue)` and `Done`.
- **Scenario** — a whole scenario as a fold of that step over the inbound
  frames. It also gives the trace of what the test harness observes:
  `done()`, `done(err)`, a thrown assertion, a re-armed listener, or an unheard frame.
- **Supervisor** — the connection test's bounded retry counter. It makes ten
  tries, and a success removes the failure handler.
- **Setup** — the version padding and the "wait for five replies" hook of the
  network tests.
- **Fixtures** — concrete scenarios taken from the suite.

External collaborators are parameters:

- The schema validator (tv4) is the function `valid: (Msg, string) -> bool`.
- `JSON.parse` is abstracted: a `Frame` is `Text(Some(json))`, `Text(None)`
  (a frame `JSON.parse` rejects) or `Binary`.
- Each reply of the WebSocket client to a connect call is an element of a sequence.

The model follows the code as written, including where it behaves differently
from what its comments and call sites suggest:

- On input, only `payload.secret` is deleted. A top-level `secret` is asserted
  absent (line 105), so a message carrying one fails instead of being cleaned
  (`Matcher.TopLevelSecretFails`).
- Normalisation is selected by the RECEIVED packet's protocol and command, and
  is applied to the expectation with that same selection.
- With no secret configured, `send` writes `secret: undefined`, which
  `JSON.stringify` drops. So a `secret` key supplied by the caller disappears
  from the outbound payload as well.
- The schema-id comparison at line 122 is a string comparison. It confuses
  packets whose protocol contains '/': `a/output/b` + `c` and `a` + `b/output/c`
  have the same id (`Wire.SchemaIdCollision`). The id comparison is equivalent to
  comparing protocol and command only for protocol names without '/'
  (`Wire.SchemaIdInjective`).
- Listener failures of two kinds both end the scenario: a call of
  `done(new Error(payload))`, or a thrown exception (the event `Threw`). The
  thrown exceptions are:
  - a chai assertion: a non-string frame (line 94), non-string `protocol` or
    `command` (lines 96-97), a schema or secret check (lines 103-106), a schema
    id (line 122) or a payload (line 150) that differs;
  - a `SyntaxError` from `JSON.parse` (line 95);
  - a `TypeError`: reading a header of a frame that parsed to `null`
    (line 96), deleting from a missing or null payload (line 100), or the one
    that `new Error(payload)` raises at line 110, described next.
- Line 110 passes the runtime's error payload to `new Error`, evidently to
  report it, but `Error` keeps only `String(payload)` as its message. Every
  object payload becomes "[object Object]", so the runtime's own message never
  reaches `done` (`Values.JsString`, `Scenario.ErrorDetailLost`). An object
  payload that owns a `toString` key (or an array holding one) cannot be
  converted at all: `String` then throws a `TypeError`, `done` is never called,
  and the scenario ends with that exception (`Values.Printable`,
  `Scenario.ShadowedToStringThrows`).

## Model

| member | source | states |
|---|---|---|
| Values.Delete | src/WebSocket.js:100 | `delete` removes the key from an object, keeps every other key with its value, and leaves non-objects unchanged |
| Values.DeleteAll | src/WebSocket.js:126-143 | a run of `delete` statements removes exactly the set of keys named, whatever their order |
| Wire.Encode | src/WebSocket.js:71-82 | the outbound object has exactly protocol, command, payload and, when configured, secret; the payload is the caller's with the configured secret overriding theirs, or with theirs dropped when no secret is configured |
| Wire.EncodeDecode | src/WebSocket.js:71-100 | decoding an encoded command yields its protocol, command and the caller's payload without any secret, with the top-level secret left in place |
| Wire.Decode | src/WebSocket.js:94-100 | a decoded message is the JSON object it came from with only `payload.secret` deleted; the only failures are the frame, header and payload checks |
| Wire.DecodeToJson | src/WebSocket.js:95-100 | decoding the JSON object of a well-formed message gives the message back, minus its payload secret |
| Wire.SchemaId | src/WebSocket.js:89 | the schema id begins with the protocol, ends with the command, and is 8 characters longer than both together |
| Wire.Matches | src/WebSocket.js:84-89 | `messageMatches`: packets that agree on protocol and command also have the same schema id |
| Wire.SchemaIdInjective | src/WebSocket.js:89 | for protocol names without '/', equal schema ids imply equal protocol and command |
| Wire.SchemaIdCollision | src/WebSocket.js:122 | two packets with different protocol and command share a schema id when a protocol contains '/' |
| Normalization.NormalizeReceived | src/WebSocket.js:126-143 | network/started loses time and running, network/stopped loses time and uptime, any error loses stack, and all other payloads are unchanged |
| Normalization.NormalizeExpected | src/WebSocket.js:126-148 | the expectation loses the same volatile fields plus its payload secret and top-level secret; protocol, command and other top-level keys are kept |
| Normalization.NormalizeKeepsOthers | src/WebSocket.js:126-143 | a payload key survives normalisation iff it is not volatile for the packet, and it keeps its value |
| Normalization.NormalizeReceivedIdempotent | src/WebSocket.js:126-143 | normalising a received payload twice equals normalising it once |
| Normalization.NormalizeExpectedIdempotent | src/WebSocket.js:126-148 | normalising an expectation twice equals normalising it once |
| Matcher.Screen | src/WebSocket.js:103-106 | a message passes iff the validator accepts it under its schema id and it carries no secret at either level; a validator rejection is reported as a schema violation |
| Matcher.Ingest | src/WebSocket.js:94-106 | a message that reaches the matcher was decoded, passed the validator, and carries no secret at either level |
| Matcher.Bails | src/WebSocket.js:108 | the bail-out fires only on an `error` packet that does not match the front expectation, so an expected error is never taken for an unexpected one |
| Matcher.Match | src/WebSocket.js:108-159 | an unexpected error fails with its payload whether or not extras are tolerated; a tolerated mismatch leaves the queue unchanged; otherwise the front is popped, and the step succeeds iff schema ids and normalised payloads agree; it is Done iff the queue had one entry; without tolerance a different schema id fails |
| Matcher.Step | src/WebSocket.js:92-158 | a screening failure ends the step; otherwise the matcher decides, with an ignored packet keeping the queue and a continued one dropping exactly its front |
| Matcher.AcceptsPops | src/WebSocket.js:120-157 | an accepted frame pops the front and completes the scenario exactly when that front was the last expectation |
| Matcher.PayloadSecretNeverSeen | src/WebSocket.js:100-106 | the payload-secret assertion can never fail on an inbound frame, because the secret was deleted first |
| Matcher.TopLevelSecretFails | src/WebSocket.js:105 | a decoded message with a top-level secret never reaches matching, and fails the secret assertion when it passes the validator |
| Matcher.EchoOfSend | src/WebSocket.js:71-105 | an echoed outbound command fails on its top-level secret when a secret is configured, and otherwise reaches matching with the caller's payload minus `secret` |
| Matcher.StrictRejectsOtherPacket | src/WebSocket.js:114-122 | without tolerance, a packet of another protocol or command (no '/' in protocol names) fails and is never skipped |
| Scenario.Deliver | src/WebSocket.js:92-159 | an armed listener either ends the scenario (the event is terminal iff the phase leaves listening) or re-arms with the same queue or its tail; an unexpected runtime error is reported through `done(new Error(..))` exactly when its payload can be converted to a string, and otherwise ends the scenario as a thrown exception; a finished scenario hears nothing |
| Scenario.Run | src/WebSocket.js:91-160 | the listener is only ever armed with a non-empty queue, and a finished scenario stays finished |
| Scenario.Trace | src/WebSocket.js:92-159 | one observed event per inbound frame; after the scenario has finished every frame is unheard, and a scenario still listening at the end has only re-armed |
| Scenario.FinishedTraceUnheard | src/WebSocket.js:108-157 | once a scenario has finished, nothing ends it again |
| Scenario.EndsExactlyOnce | src/WebSocket.js:108-159 | a scenario ends exactly once if it leaves listening and never otherwise; `done` is called at most once; nothing happens after an ending |
| Scenario.QueueIsSuffix | src/WebSocket.js:114-121 | while listening, the remaining queue is a suffix of the armed queue: expectations leave only from the front |
| Scenario.StrictPassesIffInOrder | src/WebSocket.js:120-157 | without tolerance a scenario passes iff its first n frames are accepted, the i-th against the i-th expectation |
| Scenario.TolerantPassEmbeds | src/WebSocket.js:114-157 | with tolerance, a passed scenario's expectations embed in order into the received frames, each matched on protocol and command |
| Scenario.TolerantPassesIffGreedy | src/WebSocket.js:108-157 | with tolerance, a scenario passes iff every skipped frame is ingestible, not an unexpected error and not matching the current front, and each expectation is accepted by the first frame that matches it |
| Scenario.ErrorDetailLost | src/WebSocket.js:108-111 | two unexpected runtime errors whose object payloads own no `toString` key produce the same `done` event, whose message is "[object Object]" whatever else they report |
| Scenario.ShadowedToStringThrows | src/WebSocket.js:108-111 | an unexpected runtime error whose object payload owns a `toString` key ends the scenario with a thrown exception, and `done` is not called |
| Values.JsString | src/WebSocket.js:110 | the message `new Error(v)` keeps: the conversion succeeds iff the value is printable (no object, at any array depth, owns `toString`); a convertible object becomes "[object Object]", a string is kept as it is, an empty array becomes "" |
| Supervisor.Retry | src/WebSocket.js:36-47 | a counter starting at t >= 1 makes at most t connect calls, and giving up happens exactly on the t-th call |
| Supervisor.ConnectTest | src/WebSocket.js:28-57 | a start error calls `done(err)` with no connect; otherwise between 1 and 10 connect calls are made |
| Supervisor.RetryCharacterized | src/WebSocket.js:36-53 | the test gives up iff the first t replies all fail, with the t-th error; it connects iff a success comes after only failures and before the t-th reply, on the call that success answers; it still waits iff fewer than t replies came, all failures |
| Supervisor.RetryIgnoresLaterReplies | src/WebSocket.js:39-51 | once `done` is called, later client replies change nothing, so `done` is never called again |
| Supervisor.GiveUpAfterTenCalls | src/WebSocket.js:28-46 | the connection test gives up only after ten connect calls that all failed, reporting the tenth error |
| Setup.SemanticVersion | src/WebSocket.js:15-18 | a three-character version gains ".0", any other is kept, and the result never has three characters |
| Setup.SemanticVersionStable | src/WebSocket.js:15-18 | the version is a prefix of its padded form, and padding twice equals padding once |
| Setup.WaitFor | src/WebSocket.js:624-632 | a counter starting at n >= 1 releases after exactly n messages and waits before that; one starting at or below zero never releases |
| Setup.NetworkSetupReleasesAtFive | src/WebSocket.js:624-633 | the network setup hook calls `done` iff at least five replies arrived, counting exactly five |
| Fixtures.ClearAfterSideAnnouncement | src/WebSocket.js:114-118 | with tolerance, a `changenode` side-announcement is ignored and the following `clear` completes the scenario |
| Fixtures.UnexpectedRuntimeError | src/WebSocket.js:108-112 | an `error` reply while `addnode` is expected calls `done`, tolerant or not, with the message "[object Object]" rather than the runtime's message |
| Fixtures.StartedAgreesWhateverTimeAndRunning | src/WebSocket.js:126-132 | two `network/started` payloads that differ only in their time and running fields agree after normalisation |
| Fixtures.StartedThenData | src/WebSocket.js:676-708 | with tolerance, a `network/started` reply is accepted whatever its time and running, and two `network/data` replies then complete the three-entry queue |
| Fixtures.StartedIgnoresTimeAndRunning | src/WebSocket.js:676-708 | the suite's start-network scenario (started, data, data, extra packets tolerated) passes with a reply whose time and running differ from the expectation |
| Fixtures.StoppedKeepsRunning | src/WebSocket.js:729-744 | a `network/stopped` reply whose extra uptime is dropped but whose running flag differs fails on its payload |
| Fixtures.AddGraphAndNodes | src/WebSocket.js:183-233 | the `clear` reply completes the first queue, and the two `addnode` replies complete the second queue in order |

## Left out

- The WebSocket client, its connection events, `setMaxListeners`, and the `drop`/close teardown (lines 34-69): these are I/O plumbing. The retry is modelled only as a counter over client replies.
- `setTimeout` delays and mocha timeouts (lines 27, 44-46, 785): these are wall-clock timing. A scenario whose phase is still `Listening` after the frames given is one that would time out.
- `testRuntimeCommand` (lines 808-868): child-process spawning, readiness detection and killing.
- `validateSchema` and tv4 (lines 7-12): an external library over schema data that is not part of this model. It is the parameter `valid`, and its rejection is the terminal failure `SchemaViolation`.
- `JSON.parse` and the UTF-8 frame checks (lines 94-97): frames are already parsed, with `Text(None)` and `Binary` as the decode failures.
- test/schema/test_network.js and test/schema/test_component.js: they only run tv4 against the schema catalogue and contain no logic of the engine.
- The runtime-metadata handshake (lines 164-175) and the component-list listener (lines 784-800) are listeners of their own, with their own checks. They are outside the matching engine modelled here.
- The remaining fixtures are test data. Only a few appear, as concrete lemmas.
- The source mutates the caller's `expects` array (`expects.shift()`, line 121) and the expectation objects (the `delete expected...` statements, lines 129-148) in place. The model uses immutable values: the queue a step returns and the normalised expectation are new values. A caller that reused an expectation object after a scenario would see the deleted keys missing; the model does not represent that aliasing.
- Values.JsString: integers of magnitude 10^21 or more are written in positional digits, where JavaScript's `String` uses exponent notation (such as "1e+21") and would already have rounded the number to a double.
- JSON numbers are integers. Non-integer numbers are not modelled because the engine never computes with them.
- Function-valued fixture placeholders (`time: String`, line 683) are written as strings. Normalisation deletes them before any comparison.
- Matcher.Match: requires a non-empty queue, where the source would throw a `TypeError` on `expects[0]`. `Scenario.Run` shows the listener is never armed with an empty queue once it starts with a non-empty one.
- Matcher.StrictRejectsOtherPacket: the "never skipped" property is proved only for protocol names without '/', because the source compares schema-id strings (see `Wire.SchemaIdCollision`).
- A frame that parses to `null` throws a `TypeError` at line 96 when `data.protocol` is read. The model reports it as `MissingHeader`, like any other value without string headers. Both end the scenario with a thrown error.
- An expectation whose payload is `null` or missing throws a `TypeError` at lines 129-146 when a key is deleted from it. The model treats `delete` on a non-object as a no-op, so such an expectation fails as `PayloadMismatch` instead. Both end the scenario with a thrown error.
- Setup.SemanticVersion: `version.length` counts UTF-16 code units, and the model counts characters. The two differ only for versions containing characters outside the Basic Multilingual Plane.
- JavaScript number formatting in `Values.JsString` is modelled for integers only, matching the integer-only `JNum`.

=== FILE: fixtures.dfy ===
/**
 Concrete scenarios from the conformance suite, run through the model.
 (src/WebSocket.js lines 183-233 and 676-760)
 */
module Fixtures {
  import opened Results
  import opened Values
  import opened Wire
  import opened Matcher
  import opened Scenario
  import opened Normalization

  /** A schema validator that accepts everything. */
  function AcceptAll(m: Msg, schema: string): bool {
    true
  }

  /** The frame a runtime sends for a packet. */
  function Packet(protocol: string, command: string, payload: map<string, Json>): Frame {
    Text(Some(JObj(map["protocol" := JStr(protocol), "command" := JStr(command), "payload" := JObj(payload)])))
  }

  /** An expectation without extra top-level keys. */
  function Expect(protocol: string, command: string, payload: map<string, Json>): Msg {
    Msg(protocol, command, JObj(payload), map[])
  }

  /** A runtime packet without secrets, accepted by the validator, is ingested as
      the expectation of the same protocol, command and payload. */
  lemma IngestPacket(protocol: string, command: string, payload: map<string, Json>, valid: (Msg, string) -> bool)
    requires SecretKey !in payload
    requires valid(Expect(protocol, command, payload), protocol + "/output/" + command)
    ensures Ingest(Packet(protocol, command, payload), valid) == Ok(Expect(protocol, command, payload))
  {
    var m := Expect(protocol, command, payload);
    assert ToJson(m) == Packet(protocol, command, payload).parsed.value;
    DecodeToJson(m);
    assert payload - {SecretKey} == payload;
  }

  /** A packet with no volatile fields and no secret agrees with itself. */
  lemma PlainPacketAgrees(protocol: string, command: string, payload: map<string, Json>)
    requires VolatileKeys(protocol, command) == [] && SecretKey !in payload
    ensures PayloadAgrees(Expect(protocol, command, payload), Expect(protocol, command, payload))
  {
    assert payload - {SecretKey} == payload;
  }

  /** An accepted frame against a one-entry queue passes the scenario. */
  lemma LastAccepted(e: Msg, allowExtra: bool, valid: (Msg, string) -> bool, f: Frame)
    requires Accepts(e, valid, f)
    requires allowExtra ==> Matches(Ingest(f, valid).value, e)
    ensures Deliver(Listening([e]), allowExtra, valid, f) == (Passed, DoneOk)
    ensures Run(Listening([e]), allowExtra, valid, [f]) == Passed
  {
    AcceptsPops([e], allowExtra, valid, f);
    assert Run(Listening([e]), allowExtra, valid, [f]) == Run(Passed, allowExtra, valid, []);
  }

  /** An accepted frame against a longer queue pops its front, and the rest of
      the scenario runs on the remaining expectations. */
  lemma PopAccepted(q: seq<Msg>, allowExtra: bool, valid: (Msg, string) -> bool, f: Frame, frames: seq<Frame>)
    requires |q| > 1
    requires Accepts(q[0], valid, f)
    requires allowExtra ==> Matches(Ingest(f, valid).value, q[0])
    ensures Run(Listening(q), allowExtra, valid, [f] + frames) == Run(Listening(q[1..]), allowExtra, valid, frames)
  {
    AcceptsPops(q, allowExtra, valid, f);
    assert ([f] + frames)[1..] == frames;
  }

  /** With extra packets tolerated, a `changenode` announcement before the
      expected `clear` is ignored and the `clear` ends the scenario successfully. */
  lemma ClearAfterSideAnnouncement()
    ensures var q := [Expect("graph", "clear", map["id" := JStr("foo")])];
            var frames := [Packet("graph", "changenode", map["id" := JStr("Drop1"), "graph" := JStr("foo")]),
                           Packet("graph", "clear", map["id" := JStr("foo")])];
            Trace(Listening(q), true, AcceptAll, frames) == [Rearmed, DoneOk]
            && Run(Listening(q), true, AcceptAll, frames) == Passed
  {
    var e := Expect("graph", "clear", map["id" := JStr("foo")]);
    var f0 := Packet("graph", "changenode", map["id" := JStr("Drop1"), "graph" := JStr("foo")]);
    var f1 := Packet("graph", "clear", map["id" := JStr("foo")]);
    IngestPacket("graph", "changenode", map["id" := JStr("Drop1"), "graph" := JStr("foo")], AcceptAll);
    assert Deliver(Listening([e]), true, AcceptAll, f0) == (Listening([e]), Rearmed);
    IngestPacket("graph", "clear", map["id" := JStr("foo")], AcceptAll);
    PlainPacketAgrees("graph", "clear", map["id" := JStr("foo")]);
    LastAccepted(e, true, AcceptAll, f1);
    assert [f0, f1][1..] == [f1];
  }

  /** An error from the runtime while an `addnode` is expected calls `done`,
      tolerant mode or not, with an `Error` whose message is "[object Object]":
      the runtime's message does not reach the test harness. */
  lemma UnexpectedRuntimeError(allowExtra: bool)
    ensures var q := [Expect("graph", "addnode", map["id" := JStr("X")])];
            var err := map["message" := JStr("No graph specified")];
            Trace(Listening(q), allowExtra, AcceptAll, [Packet("graph", "error", err)]) == [DoneErr("[object Object]")]
            && Run(Listening(q), allowExtra, AcceptAll, [Packet("graph", "error", err)])
               == Failed(UnexpectedError(JObj(err)))
  {
    var err := map["message" := JStr("No graph specified")];
    IngestPacket("graph", "error", err, AcceptAll);
  }

  /** Two `network/started` payloads that differ only in time and running agree. */
  lemma StartedAgreesWhateverTimeAndRunning(kept: map<string, Json>, time1: Json, running1: Json, time2: Json, running2: Json)
    requires "time" !in kept && "running" !in kept && SecretKey !in kept
    ensures PayloadAgrees(Expect("network", "started", kept["running" := running1]["time" := time1]),
                          Expect("network", "started", kept["running" := running2]["time" := time2]))
  {
    assert kept["running" := running1]["time" := time1] - {"time", "running"} == kept;
    assert kept["running" := running2]["time" := time2] - {"time", "running"} - {SecretKey} == kept;
  }

  /** A `network/started` reply is accepted against a `network/started`
      expectation whatever time and running flag either of them carries. */
  lemma StartedAccepted(kept: map<string, Json>, time1: Json, running1: Json, time2: Json, running2: Json)
    requires "time" !in kept && "running" !in kept && SecretKey !in kept
    ensures var f := Packet("network", "started", kept["running" := running1]["time" := time1]);
            && Accepts(Expect("network", "started", kept["running" := running2]["time" := time2]), AcceptAll, f)
            && Matches(Ingest(f, AcceptAll).value, Expect("network", "started", kept["running" := running2]["time" := time2]))
  {
    var pl := kept["running" := running1]["time" := time1];
    assert SecretKey !in pl;
    IngestPacket("network", "started", pl, AcceptAll);
    StartedAgreesWhateverTimeAndRunning(kept, time1, running1, time2, running2);
  }

  /** Two plain packets answer a two-entry queue of the same packets in order. */
  lemma PlainPairPasses(protocol: string, command: string, a: map<string, Json>, b: map<string, Json>)
    requires VolatileKeys(protocol, command) == [] && SecretKey !in a && SecretKey !in b
    ensures Run(Listening([Expect(protocol, command, a), Expect(protocol, command, b)]), true, AcceptAll,
                [Packet(protocol, command, a), Packet(protocol, command, b)]) == Passed
  {
    var ea := Expect(protocol, command, a);
    var eb := Expect(protocol, command, b);
    var fa := Packet(protocol, command, a);
    var fb := Packet(protocol, command, b);
    IngestPacket(protocol, command, a, AcceptAll);
    PlainPacketAgrees(protocol, command, a);
    assert [fa, fb] == [fa] + [fb];
    PopAccepted([ea, eb], true, AcceptAll, fa, [fb]);
    assert [ea, eb][1..] == [eb];
    IngestPacket(protocol, command, b, AcceptAll);
    PlainPacketAgrees(protocol, command, b);
    LastAccepted(eb, true, AcceptAll, fb);
  }

  /** A tolerant `network/started` scenario followed by two `network/data`
      packets passes whatever time and running flag the runtime reports. */
  lemma StartedThenData(kept: map<string, Json>, time: Json, running: Json,
                        data1: map<string, Json>, data2: map<string, Json>)
    requires "time" !in kept && "running" !in kept && SecretKey !in kept
    requires SecretKey !in data1 && SecretKey !in data2
    ensures var q := [Expect("network", "started", kept["running" := JBool(true)]["time" := JStr("String")]),
                      Expect("network", "data", data1), Expect("network", "data", data2)];
            var frames := [Packet("network", "started", kept["running" := running]["time" := time]),
                           Packet("network", "data", data1), Packet("network", "data", data2)];
            Run(Listening(q), true, AcceptAll, frames) == Passed
  {
    var eStarted := Expect("network", "started", kept["running" := JBool(true)]["time" := JStr("String")]);
    var e1 := Expect("network", "data", data1);
    var e2 := Expect("network", "data", data2);
    var f0 := Packet("network", "started", kept["running" := running]["time" := time]);
    var f1 := Packet("network", "data", data1);
    var f2 := Packet("network", "data", data2);
    assert [eStarted, e1, e2][1..] == [e1, e2];
    assert [f0] + [f1, f2] == [f0, f1, f2];
    StartedAccepted(kept, time, running, JStr("String"), JBool(true));
    PlainPairPasses("network", "data", data1, data2);
    PopAccepted([eStarted, e1, e2], true, AcceptAll, f0, [f1, f2]);
  }

  /** Starting the network: with extra packets tolerated, a `network/started`
      reply whose time and running differ from the expectation is accepted, and
      the two `network/data` replies that follow complete the scenario. */
  lemma StartedIgnoresTimeAndRunning()
    ensures var kept := map["graph" := JStr("bar"), "started" := JBool(true)];
            var data1 := map["id" := JStr("DATA -> IN Hello()"), "graph" := JStr("bar"),
                             "tgt" := JObj(map["node" := JStr("Hello"), "port" := JStr("in")]),
                             "data" := JStr("Hello, world!")];
            var data2 := map["id" := JStr("Hello() OUT -> IN World()"), "graph" := JStr("bar"),
                             "src" := JObj(map["node" := JStr("Hello"), "port" := JStr("out")]),
                             "tgt" := JObj(map["node" := JStr("World"), "port" := JStr("in")]),
                             "data" := JStr("Hello, world!")];
            var q := [Expect("network", "started", kept["running" := JBool(true)]["time" := JStr("String")]),
                      Expect("network", "data", data1), Expect("network", "data", data2)];
            var frames := [Packet("network", "started", kept["running" := JBool(false)]["time" := JStr("2024-01-01T00:00:00Z")]),
                           Packet("network", "data", data1), Packet("network", "data", data2)];
            Run(Listening(q), true, AcceptAll, frames) == Passed
  {
    var kept := map["graph" := JStr("bar"), "started" := JBool(true)];
    var data1 := map["id" := JStr("DATA -> IN Hello()"), "graph" := JStr("bar"),
                     "tgt" := JObj(map["node" := JStr("Hello"), "port" := JStr("in")]),
                     "data" := JStr("Hello, world!")];
    var data2 := map["id" := JStr("Hello() OUT -> IN World()"), "graph" := JStr("bar"),
                     "src" := JObj(map["node" := JStr("Hello"), "port" := JStr("out")]),
                     "tgt" := JObj(map["node" := JStr("World"), "port" := JStr("in")]),
                     "data" := JStr("Hello, world!")];
    StartedThenData(kept, JStr("2024-01-01T00:00:00Z"), JBool(false), data1, data2);
  }

  /** `network/stopped` drops the uptime as well, but not the running flag: a
      stopped packet that still reports running fails the comparison. */
  lemma StoppedKeepsRunning()
    ensures var q := [Expect("network", "stopped", map["graph" := JStr("bar"), "running" := JBool(false),
                                                      "started" := JBool(false)])];
            var f := Packet("network", "stopped", map["graph" := JStr("bar"), "running" := JBool(true),
                                                     "started" := JBool(false), "uptime" := JNum(3)]);
            Run(Listening(q), true, AcceptAll, [f]).Failed?
            && Run(Listening(q), true, AcceptAll, [f]).failure.PayloadMismatch?
  {
    var pl := map["graph" := JStr("bar"), "running" := JBool(true), "started" := JBool(false), "uptime" := JNum(3)];
    IngestPacket("network", "stopped", pl, AcceptAll);
    assert (pl - {"time", "uptime"})["running"] == JBool(true);
  }

  /** The first graph scenario: the `clear` reply completes its own queue, then
      the two `addnode` replies complete the second queue in order. */
  lemma AddGraphAndNodes()
    ensures var clear := map["id" := JStr("foo"), "main" := JBool(true), "name" := JStr("Foo graph")];
            var repeat := map["id" := JStr("Repeat1"), "component" := JStr("core/Repeat"),
                              "metadata" := JObj(map["hello" := JStr("World")]), "graph" := JStr("foo")];
            var drop := map["id" := JStr("Drop1"), "component" := JStr("core/Drop"),
                            "metadata" := JObj(map[]), "graph" := JStr("foo")];
            && Run(Listening([Expect("graph", "clear", clear)]), true, AcceptAll,
                   [Packet("graph", "clear", clear)]) == Passed
            && Run(Listening([Expect("graph", "addnode", repeat), Expect("graph", "addnode", drop)]), true, AcceptAll,
                   [Packet("graph", "addnode", repeat), Packet("graph", "addnode", drop)]) == Passed
  {
    var clear := map["id" := JStr("foo"), "main" := JBool(true), "name" := JStr("Foo graph")];
    var repeat := map["id" := JStr("Repeat1"), "component" := JStr("core/Repeat"),
                      "metadata" := JObj(map["hello" := JStr("World")]), "graph" := JStr("foo")];
    var drop := map["id" := JStr("Drop1"), "component" := JStr("core/Drop"),
                    "metadata" := JObj(map[]), "graph" := JStr("foo")];
    IngestPacket("graph", "clear", clear, AcceptAll);
    PlainPacketAgrees("graph", "clear", clear);
    LastAccepted(Expect("graph", "clear", clear), true, AcceptAll, Packet("graph", "clear", clear));
    PlainPairPasses("graph", "addnode", repeat, drop);
  }
}

=== FILE: matcher.dfy ===
/**
 The one-shot `message` listener that `receive` arms: it consumes a single
 inbound frame against the queue of expected packets and either fails, ignores
 the frame, pops the front expectation and re-arms, or reports the scenario done.
 (src/WebSocket.js lines 91-160)
 */
module Matcher {
  import opened Results
  import opened Values
  import opened Wire
  import opened Normalization

  /** What one invocation of the listener does. `Ignore` and `Continue` both
      re-register the listener, with the queue they carry. */
  datatype Outcome =
    | Fail(failure: Failure)
    | Ignore(queue: seq<Msg>)
    | Continue(queue: seq<Msg>)
    | Done

  /** The schema gate and the secret checks applied to a decoded message, in
      the order written: schema validation first, then no top-level secret, then
      no payload secret. `valid` is the external schema validator. */
  function Screen(m: Msg, valid: (Msg, string) -> bool): (r: Result<Msg, Failure>)
    ensures r.Ok? <==> valid(m, SchemaId(m)) && SecretKey !in m.rest && !HasKey(m.payload, SecretKey)
    ensures r.Ok? ==> r.value == m
    ensures !valid(m, SchemaId(m)) ==> r == Err(SchemaViolation(SchemaId(m)))
  {
    if !valid(m, SchemaId(m)) then Err(SchemaViolation(SchemaId(m)))
    else if SecretKey in m.rest then Err(SecretInMessage)
    else if HasKey(m.payload, SecretKey) then Err(SecretInPayload)
    else Ok(m)
  }

  /** Everything the listener checks before it looks at the queue. */
  function Ingest(f: Frame, valid: (Msg, string) -> bool): (r: Result<Msg, Failure>)
    ensures r.Ok? ==> Decode(f) == r && valid(r.value, SchemaId(r.value)) && SecretKey !in r.value.rest
    ensures r.Ok? ==> !HasKey(r.value.payload, SecretKey)
  {
    match Decode(f)
    case Err(e) => Err(e)
    case Ok(m) => Screen(m, valid)
  }

  /** The inbound message reports an error while the front expectation does not
      expect one: the listener bails out. */
  predicate Bails(front: Msg, m: Msg)
    // only an error that the front does not announce triggers it
    ensures Bails(front, m) ==> m.command == "error" && !Matches(m, front)
  {
    front.command != "error" && m.command == "error"
  }

  /** After normalising both, the received payload deeply equals the expected one. */
  predicate PayloadAgrees(m: Msg, expected: Msg) {
    NormalizeReceived(m) == NormalizeExpected(m, expected).payload
  }

  /**
   The decision the listener takes for a screened message against a non-empty
   queue (the source reads `expects[0]` unguarded).
   */
  function Match(queue: seq<Msg>, allowExtra: bool, m: Msg): (r: Outcome)
    requires |queue| > 0
    // an unexpected runtime error ends the scenario, extra packets tolerated or not
    ensures Bails(queue[0], m) <==> r == Fail(UnexpectedError(m.payload))
    // tolerated extra packets leave the queue as it is
    ensures r.Ignore? <==> allowExtra && !Bails(queue[0], m) && !Matches(m, queue[0])
    ensures r.Ignore? ==> r.queue == queue
    // a packet that is not ignored consumes the front expectation, and only it
    ensures r.Continue? ==> r.queue == queue[1..] && |r.queue| > 0
    ensures r.Done? ==> |queue| == 1
    ensures (r.Continue? || r.Done?) <==>
              && !Bails(queue[0], m)
              && (allowExtra ==> Matches(m, queue[0]))
              && SchemaId(m) == SchemaId(queue[0])
              && PayloadAgrees(m, queue[0])
    // without tolerance a packet of another schema is never skipped
    ensures (!allowExtra && !Bails(queue[0], m) && SchemaId(m) != SchemaId(queue[0]))
            ==> r == Fail(WrongPacket(SchemaId(m), SchemaId(queue[0])))
  {
    var front := queue[0];
    if Bails(front, m) then
      Fail(UnexpectedError(m.payload))
    else if allowExtra && !Matches(m, front) then
      Ignore(queue)
    else
      var rest := queue[1..];
      if SchemaId(m) != SchemaId(front) then
        Fail(WrongPacket(SchemaId(m), SchemaId(front)))
      else
        var expected := NormalizeExpected(m, front);
        var got := NormalizeReceived(m);
        if got != expected.payload then
          Fail(PayloadMismatch(got, expected.payload))
        else if |rest| == 0 then
          Done
        else
          Continue(rest)
  }

  /** One invocation of the listener on an inbound frame. */
  function Step(queue: seq<Msg>, allowExtra: bool, valid: (Msg, string) -> bool, f: Frame): (r: Outcome)
    requires |queue| > 0
    ensures Ingest(f, valid).Err? ==> r == Fail(Ingest(f, valid).error)
    ensures Ingest(f, valid).Ok? ==> r == Match(queue, allowExtra, Ingest(f, valid).value)
    ensures (r.Ignore? || r.Continue?) ==> 0 < |r.queue| <= |queue|
    ensures r.Ignore? ==> r.queue == queue
    ensures r.Continue? ==> r.queue == queue[1..]
  {
    match Ingest(f, valid)
    case Err(e) => Fail(e)
    case Ok(m) => Match(queue, allowExtra, m)
  }

  /** Accepted: the frame passes every check and consumes `expected` as the front. */
  predicate Accepts(expected: Msg, valid: (Msg, string) -> bool, f: Frame) {
    && Ingest(f, valid).Ok?
    && var m := Ingest(f, valid).value;
    && !Bails(expected, m)
    && SchemaId(m) == SchemaId(expected)
    && PayloadAgrees(m, expected)
  }

  /** A frame that is accepted with tolerance on, or accepted without it, pops the
      front, finishing the scenario exactly when the front was the last entry. */
  lemma AcceptsPops(queue: seq<Msg>, allowExtra: bool, valid: (Msg, string) -> bool, f: Frame)
    requires |queue| > 0
    requires Accepts(queue[0], valid, f)
    requires allowExtra ==> Matches(Ingest(f, valid).value, queue[0])
    ensures Step(queue, allowExtra, valid, f) == if |queue| == 1 then Done else Continue(queue[1..])
  {
  }

  /** The payload secret never reaches the matcher: the check at line 106 can
      only fail on a message that did not come out of `Decode`. */
  lemma PayloadSecretNeverSeen(f: Frame, valid: (Msg, string) -> bool)
    ensures Ingest(f, valid) != Err(SecretInPayload)
  {
  }

  /** A top-level secret is not stripped: a decoded message that still carries
      one fails, whatever the schema validator says, if it passes validation. */
  lemma TopLevelSecretFails(f: Frame, valid: (Msg, string) -> bool)
    requires Decode(f).Ok? && SecretKey in Decode(f).value.rest
    ensures Ingest(f, valid).Err?
    ensures valid(Decode(f).value, SchemaId(Decode(f).value)) ==> Ingest(f, valid) == Err(SecretInMessage)
  {
  }

  /** Echoing one of our own outbound messages: with a secret configured the
      top-level secret makes the listener fail; without one it passes the
      secret checks with the caller's payload minus its `secret` key. */
  lemma EchoOfSend(protocol: string, command: string, payload: map<string, Json>,
                   secret: Option<string>, valid: (Msg, string) -> bool)
    requires valid(Msg(protocol, command, JObj(payload - {SecretKey}),
                       if secret.Some? then map[SecretKey := JStr(secret.value)] else map[]),
                   protocol + "/output/" + command)
    ensures secret.Some? ==> Ingest(Text(Some(Encode(protocol, command, payload, secret))), valid) == Err(SecretInMessage)
    ensures secret.None? ==> Ingest(Text(Some(Encode(protocol, command, payload, secret))), valid)
                             == Ok(Msg(protocol, command, JObj(payload - {SecretKey}), map[]))
  {
    EncodeDecode(protocol, command, payload, secret);
  }

  /** Without tolerance a packet whose protocol or command differs from the
      front's is never skipped and never accepted, as long as protocol names
      contain no '/' (see `Wire.SchemaIdCollision` for what happens otherwise). */
  lemma StrictRejectsOtherPacket(queue: seq<Msg>, m: Msg)
    requires |queue| > 0
    requires '/' !in m.protocol && '/' !in queue[0].protocol
    requires !Matches(m, queue[0])
    ensures Match(queue, false, m).Fail?
  {
    if SchemaId(m) == SchemaId(queue[0]) {
      SchemaIdInjective(m, queue[0]);
      assert false;
    }
  }
}

=== FILE: normalization.dfy ===
/**
 Removal of the payload fields that cannot be compared with deep equality
 (timestamps, uptimes, stack traces) and of the secret an expectation may carry.
 (src/WebSocket.js lines 124-148)
 */
module Normalization {
  import opened Values
  import opened Wire

  /** The keys deleted from both payloads, in the order the deletions are
      written, chosen by the RECEIVED packet's protocol and command. */
  function VolatileKeys(protocol: string, command: string): seq<string> {
    (if protocol == "network" && command == "started" then ["time", "running"] else [])
    + (if protocol == "network" && command == "stopped" then ["time", "uptime"] else [])
    + (if command == "error" then ["stack"] else [])
  }

  /** The received payload with the volatile fields deleted. */
  function NormalizeReceived(m: Msg): (r: Json)
    ensures m.protocol == "network" && m.command == "started" ==> r == Without(m.payload, {"time", "running"})
    ensures m.protocol == "network" && m.command == "stopped" ==> r == Without(m.payload, {"time", "uptime"})
    ensures m.command == "error" ==> r == Without(m.payload, {"stack"})
    ensures !(m.protocol == "network" && m.command in {"started", "stopped"}) && m.command != "error" ==> r == m.payload
  {
    DeleteAll(m.payload, VolatileKeys(m.protocol, m.command))
  }

  /** The expectation after the deletions made on it: the same volatile fields
      (chosen by the received packet), then its payload secret and its
      top-level secret. */
  function NormalizeExpected(received: Msg, expected: Msg): (r: Msg)
    ensures r.protocol == expected.protocol && r.command == expected.command
    ensures r.payload == Without(NormalizeReceived(received.(payload := expected.payload)), {SecretKey})
    ensures SecretKey !in r.rest
    ensures forall k :: k != SecretKey ==> (k in r.rest <==> k in expected.rest)
    ensures forall k :: k != SecretKey && k in expected.rest ==> k in r.rest && r.rest[k] == expected.rest[k]
  {
    var payload := DeleteAll(expected.payload, VolatileKeys(received.protocol, received.command));
    expected.(payload := Delete(payload, SecretKey), rest := expected.rest - {SecretKey})
  }

  /** A payload key survives normalisation exactly when it is not among the
      volatile keys of the packet; its value is kept. */
  lemma NormalizeKeepsOthers(m: Msg, k: string)
    ensures HasKey(NormalizeReceived(m), k) <==> HasKey(m.payload, k) && k !in VolatileKeys(m.protocol, m.command)
    ensures HasKey(NormalizeReceived(m), k) ==> NormalizeReceived(m).fields[k] == m.payload.fields[k]
  {
  }

  /** Normalising an already normalised payload changes nothing. */
  lemma NormalizeReceivedIdempotent(m: Msg)
    ensures NormalizeReceived(m.(payload := NormalizeReceived(m))) == NormalizeReceived(m)
  {
  }

  /** Normalising an already normalised expectation changes nothing. */
  lemma NormalizeExpectedIdempotent(received: Msg, expected: Msg)
    ensures NormalizeExpected(received, NormalizeExpected(received, expected)) == NormalizeExpected(received, expected)
  {
  }
}

=== FILE: scenario.dfy ===
/**
 A scenario as `receive` drives it: the listener is armed once with a queue,
 each inbound frame goes to it while it is armed, and the scenario ends when
 `done` is called or an assertion throws.
 (src/WebSocket.js lines 91-160)
 */
module Scenario {
  import opened Results
  import opened Values
  import opened Wire
  import opened Matcher

  /** Where a scenario stands: the listener armed with a queue, or finished. */
  datatype Phase = Listening(queue: seq<Msg>) | Passed | Failed(failure: Failure)

  /** What the test harness observes for one inbound frame: `done()`,
      `done(new Error(payload))` with the message that error carries, a thrown
      exception (a chai assertion, a `SyntaxError` from `JSON.parse`, or a
      `TypeError`), a re-registered listener, or nothing because no listener
      is registered any more. */
  datatype Event = DoneOk | DoneErr(message: string) | Threw(failure: Failure) | Rearmed | Unheard

  /** The listener is only ever armed with a non-empty queue. */
  predicate Armed(p: Phase) {
    p.Listening? ==> |p.queue| > 0
  }

  /** The event ends the scenario. */
  predicate Terminal(e: Event) {
    e.DoneOk? || e.DoneErr? || e.Threw?
  }

  /** One inbound frame: handled by the listener when it is armed, unheard otherwise. */
  function Deliver(p: Phase, allowExtra: bool, valid: (Msg, string) -> bool, f: Frame): (r: (Phase, Event))
    requires Armed(p)
    ensures Armed(r.0)
    ensures !p.Listening? ==> r == (p, Unheard)
    ensures p.Listening? ==> (Terminal(r.1) <==> !r.0.Listening?)
    ensures p.Listening? ==> (r.1 == DoneOk <==> r.0 == Passed)
    ensures p.Listening? && r.0.Listening? ==> r.1 == Rearmed && (r.0.queue == p.queue || r.0.queue == p.queue[1..])
    ensures r.1.DoneErr? ==> r.0.Failed? && r.0.failure.UnexpectedError?
                             && JsString(r.0.failure.detail) == Some(r.1.message)
    // an unexpected runtime error is reported through `done` exactly when
    // `new Error(payload)` can convert its payload; otherwise that constructor throws
    ensures p.Listening? && r.0.Failed? && r.0.failure.UnexpectedError? ==>
              (r.1.DoneErr? <==> Printable(r.0.failure.detail))
              && (!r.1.DoneErr? ==> r.1 == Threw(r.0.failure))
  {
    if !p.Listening? then (p, Unheard)
    else
      match Step(p.queue, allowExtra, valid, f)
      case Fail(e) =>
        (Failed(e), if e.UnexpectedError? && JsString(e.detail).Some? then DoneErr(JsString(e.detail).value) else Threw(e))
      case Ignore(q) => (Listening(q), Rearmed)
      case Continue(q) => (Listening(q), Rearmed)
      case Done => (Passed, DoneOk)
  }

  /** The phase after a sequence of inbound frames. */
  function Run(p: Phase, allowExtra: bool, valid: (Msg, string) -> bool, frames: seq<Frame>): (r: Phase)
    requires Armed(p)
    ensures Armed(r)
    ensures !p.Listening? ==> r == p
    decreases |frames|
  {
    if |frames| == 0 then p
    else Run(Deliver(p, allowExtra, valid, frames[0]).0, allowExtra, valid, frames[1..])
  }

  /** The events a sequence of inbound frames produces, one per frame. */
  function Trace(p: Phase, allowExtra: bool, valid: (Msg, string) -> bool, frames: seq<Frame>): (t: seq<Event>)
    requires Armed(p)
    ensures |t| == |frames|
    // a finished scenario hears nothing, and one still listening at the end has only re-armed
    ensures !p.Listening? ==> forall i :: 0 <= i < |t| ==> t[i] == Unheard
    ensures Run(p, allowExtra, valid, frames).Listening? ==> forall i :: 0 <= i < |t| ==> t[i] == Rearmed
    decreases |frames|
  {
    if |frames| == 0 then []
    else
      var (p', e) := Deliver(p, allowExtra, valid, frames[0]);
      [e] + Trace(p', allowExtra, valid, frames[1..])
  }

  /** How many events of a trace end the scenario. */
  function Endings(t: seq<Event>): nat {
    if |t| == 0 then 0 else (if Terminal(t[0]) then 1 else 0) + Endings(t[1..])
  }

  /** How many events of a trace call `done`. */
  function DoneCalls(t: seq<Event>): nat {
    if |t| == 0 then 0 else (if t[0].DoneOk? || t[0].DoneErr? then 1 else 0) + DoneCalls(t[1..])
  }

  /** Calls of `done` are among the endings. */
  lemma {:induction false} DoneCallsAreEndings(t: seq<Event>)
    ensures DoneCalls(t) <= Endings(t)
  {
    if |t| > 0 {
      DoneCallsAreEndings(t[1..]);
    }
  }

  /** A finished scenario is never ended again. */
  lemma {:induction false} FinishedTraceUnheard(p: Phase, allowExtra: bool, valid: (Msg, string) -> bool, frames: seq<Frame>)
    requires Armed(p) && !p.Listening?
    ensures Endings(Trace(p, allowExtra, valid, frames)) == 0
    decreases |frames|
  {
    if |frames| > 0 {
      FinishedTraceUnheard(p, allowExtra, valid, frames[1..]);
    }
  }

  /**
   Every scenario ends at most once, and it has ended exactly when its phase is
   no longer listening: `done` or a thrown assertion happens once, never twice,
   and nothing happens after it.
   */
  lemma {:induction false} EndsExactlyOnce(p: Phase, allowExtra: bool, valid: (Msg, string) -> bool, frames: seq<Frame>)
    requires Armed(p) && p.Listening?
    ensures Endings(Trace(p, allowExtra, valid, frames)) == if Run(p, allowExtra, valid, frames).Listening? then 0 else 1
    ensures DoneCalls(Trace(p, allowExtra, valid, frames)) <= 1
    ensures forall i, j :: 0 <= i < j < |frames| && Terminal(Trace(p, allowExtra, valid, frames)[i])
              ==> Trace(p, allowExtra, valid, frames)[j] == Unheard
    decreases |frames|
  {
    var t := Trace(p, allowExtra, valid, frames);
    DoneCallsAreEndings(t);
    if |frames| > 0 {
      var (p', e) := Deliver(p, allowExtra, valid, frames[0]);
      var t' := Trace(p', allowExtra, valid, frames[1..]);
      assert t == [e] + t';
      assert t[1..] == t';
      if p'.Listening? {
        EndsExactlyOnce(p', allowExtra, valid, frames[1..]);
      } else {
        FinishedTraceUnheard(p', allowExtra, valid, frames[1..]);
        forall i, j | 0 <= i < j < |frames| && Terminal(t[i])
          ensures t[j] == Unheard
        {
          assert t[j] == t'[j - 1];
        }
      }
    }
  }

  /** The queue only ever loses entries from its front: while listening, the
      remaining queue is a suffix of the armed one. */
  lemma {:induction false} QueueIsSuffix(q: seq<Msg>, allowExtra: bool, valid: (Msg, string) -> bool, frames: seq<Frame>)
    requires |q| > 0
    ensures var r := Run(Listening(q), allowExtra, valid, frames);
            r.Listening? ==> |r.queue| <= |q| && r.queue == q[|q| - |r.queue|..]
    decreases |frames|
  {
    if |frames| > 0 {
      var p' := Deliver(Listening(q), allowExtra, valid, frames[0]).0;
      assert p'.Listening? ==> p'.queue == q || p'.queue == q[1..];
      assert Run(Listening(q), allowExtra, valid, frames) == Run(p', allowExtra, valid, frames[1..]);
      if p'.Listening? {
        QueueIsSuffix(p'.queue, allowExtra, valid, frames[1..]);
        var r := Run(p', allowExtra, valid, frames[1..]);
        if r.Listening? && p'.queue != q {
          assert p'.queue == q[1..];
          assert q[1..][|q[1..]| - |r.queue|..] == q[|q| - |r.queue|..];
        }
      }
    }
  }

  /**
   Without tolerance of extra packets a scenario passes exactly when its first
   |q| frames are accepted, the i-th against the i-th expectation: matches
   are consumed in strict FIFO order and nothing is skipped.
   */
  lemma {:induction false} StrictPassesIffInOrder(q: seq<Msg>, valid: (Msg, string) -> bool, frames: seq<Frame>)
    requires |q| > 0
    ensures Run(Listening(q), false, valid, frames) == Passed <==>
              |q| <= |frames| && forall i :: 0 <= i < |q| ==> Accepts(q[i], valid, frames[i])
    decreases |q|
  {
    if |frames| == 0 {
      return;
    }
    var step := Step(q, false, valid, frames[0]);
    if Accepts(q[0], valid, frames[0]) {
      AcceptsPops(q, false, valid, frames[0]);
      if |q| == 1 {
        assert Deliver(Listening(q), false, valid, frames[0]).0 == Passed;
      } else {
        assert Deliver(Listening(q), false, valid, frames[0]).0 == Listening(q[1..]);
        StrictPassesIffInOrder(q[1..], valid, frames[1..]);
        InOrderShift(q, valid, frames);
      }
    } else {
      assert !step.Continue? && !step.Done? && !step.Ignore?;
      assert Deliver(Listening(q), false, valid, frames[0]).0.Failed?;
    }
  }

  /** Past an accepted first frame, the in-order condition is the same
      condition on the remaining expectations and frames. */
  lemma InOrderShift(q: seq<Msg>, valid: (Msg, string) -> bool, frames: seq<Frame>)
    requires |q| > 0 && |frames| > 0 && Accepts(q[0], valid, frames[0])
    ensures (|q| <= |frames| && forall i :: 0 <= i < |q| ==> Accepts(q[i], valid, frames[i])) <==>
            (|q[1..]| <= |frames[1..]| && forall i :: 0 <= i < |q[1..]| ==> Accepts(q[1..][i], valid, frames[1..][i]))
  {
    if |q[1..]| <= |frames[1..]| && forall i :: 0 <= i < |q[1..]| ==> Accepts(q[1..][i], valid, frames[1..][i]) {
      forall i | 0 <= i < |q|
        ensures Accepts(q[i], valid, frames[i])
      {
        if i > 0 {
          assert q[i] == q[1..][i - 1];
          assert frames[i] == frames[1..][i - 1];
        }
      }
    }
  }

  /** `q` can be matched, in order, against a subsequence of `frames` whose
      entries also agree with their expectation on protocol and command. */
  predicate Embeds(q: seq<Msg>, valid: (Msg, string) -> bool, frames: seq<Frame>)
    decreases |frames|
  {
    if |q| == 0 then true
    else if |frames| == 0 then false
    else
      || (Accepts(q[0], valid, frames[0]) && Matches(Ingest(frames[0], valid).value, q[0])
          && Embeds(q[1..], valid, frames[1..]))
      || Embeds(q, valid, frames[1..])
  }

  /**
   With extra packets tolerated, a passed scenario still consumed its
   expectations in FIFO order: they embed, in order, into the frames received.
   */
  lemma {:induction false} TolerantPassEmbeds(q: seq<Msg>, valid: (Msg, string) -> bool, frames: seq<Frame>)
    requires |q| > 0
    requires Run(Listening(q), true, valid, frames) == Passed
    ensures Embeds(q, valid, frames)
    decreases |frames|
  {
    assert |frames| > 0;
    var step := Step(q, true, valid, frames[0]);
    var p' := Deliver(Listening(q), true, valid, frames[0]).0;
    assert Run(p', true, valid, frames[1..]) == Passed;
    match step
    case Ignore(q') =>
      TolerantPassEmbeds(q, valid, frames[1..]);
    case Continue(q') =>
      TolerantPassEmbeds(q[1..], valid, frames[1..]);
    case Done =>
      assert q[1..] == [];
    case Fail(e) =>
      assert false;
  }

  /**
   An unexpected runtime error whose payload is an object without its own
   `toString` key reaches `done` as the fixed message "[object Object]": two
   such errors, whatever else they report, produce the same event.
   */
  lemma ErrorDetailLost(q: seq<Msg>, allowExtra: bool, valid: (Msg, string) -> bool, f1: Frame, f2: Frame)
    requires |q| > 0
    requires Ingest(f1, valid).Ok? && Bails(q[0], Ingest(f1, valid).value)
    requires Ingest(f1, valid).value.payload.JObj? && !HasKey(Ingest(f1, valid).value.payload, "toString")
    requires Ingest(f2, valid).Ok? && Bails(q[0], Ingest(f2, valid).value)
    requires Ingest(f2, valid).value.payload.JObj? && !HasKey(Ingest(f2, valid).value.payload, "toString")
    ensures Deliver(Listening(q), allowExtra, valid, f1) == (Failed(UnexpectedError(Ingest(f1, valid).value.payload)), DoneErr("[object Object]"))
    ensures Deliver(Listening(q), allowExtra, valid, f1).1 == Deliver(Listening(q), allowExtra, valid, f2).1
  {
  }

  /**
   An unexpected runtime error whose object payload owns a `toString` key
   never reaches `done`: `new Error(payload)` throws while converting it, and
   the scenario ends with that exception instead.
   */
  lemma ShadowedToStringThrows(q: seq<Msg>, allowExtra: bool, valid: (Msg, string) -> bool, f: Frame)
    requires |q| > 0
    requires Ingest(f, valid).Ok? && Bails(q[0], Ingest(f, valid).value)
    requires HasKey(Ingest(f, valid).value.payload, "toString")
    ensures Deliver(Listening(q), allowExtra, valid, f)
            == (Failed(UnexpectedError(Ingest(f, valid).value.payload)), Threw(UnexpectedError(Ingest(f, valid).value.payload)))
    ensures DoneCalls(Trace(Listening(q), allowExtra, valid, [f])) == 0
  {
  }

  /**
   Greedy in-order matching with extra packets tolerated: every frame before
   the first one agreeing with `q[0]` on protocol and command passes the
   listener's checks, is not an unexpected error, and is skipped; that first
   agreeing frame is accepted against `q[0]`; and the frames after it match
   the rest of the queue in the same way.
   */
  predicate GreedyEmbeds(q: seq<Msg>, valid: (Msg, string) -> bool, frames: seq<Frame>)
    requires |q| > 0
    decreases |frames|
  {
    && |frames| > 0
    && Ingest(frames[0], valid).Ok?
    && !Bails(q[0], Ingest(frames[0], valid).value)
    && if !Matches(Ingest(frames[0], valid).value, q[0]) then GreedyEmbeds(q, valid, frames[1..])
       else Accepts(q[0], valid, frames[0]) && (|q| == 1 || GreedyEmbeds(q[1..], valid, frames[1..]))
  }

  /** With extra packets tolerated, a scenario passes exactly when its queue
      embeds greedily into the frames: skipped frames are the non-matching
      ones, and each expectation consumes the first frame that matches it. */
  lemma {:induction false} TolerantPassesIffGreedy(q: seq<Msg>, valid: (Msg, string) -> bool, frames: seq<Frame>)
    requires |q| > 0
    ensures Run(Listening(q), true, valid, frames) == Passed <==> GreedyEmbeds(q, valid, frames)
    decreases |frames|
  {
    if |frames| == 0 {
      return;
    }
    var p' := Deliver(Listening(q), true, valid, frames[0]).0;
    assert Run(Listening(q), true, valid, frames) == Run(p', true, valid, frames[1..]);
    var ing := Ingest(frames[0], valid);
    if ing.Err? || Bails(q[0], ing.value) {
      assert p'.Failed?;
    } else if !Matches(ing.value, q[0]) {
      assert p' == Listening(q);
      TolerantPassesIffGreedy(q, valid, frames[1..]);
    } else if !Accepts(q[0], valid, frames[0]) {
      assert p'.Failed?;
    } else {
      AcceptsPops(q, true, valid, frames[0]);
      if |q| > 1 {
        assert p' == Listening(q[1..]);
        TolerantPassesIffGreedy(q[1..], valid, frames[1..]);
      }
    }
  }
}

=== FILE: setup.dfy ===
/**
 Two small pieces of suite setup: the padding of a two-part protocol version
 to a semantic version, and the network-protocol `before` hook that waits for
 a fixed number of replies before the first network scenario runs.
 (src/WebSocket.js lines 14-18 and 624-633)
 */
module Setup {

  /** A version string of length three ("0.7") gains a ".0" patch part. */
  function SemanticVersion(version: string): (r: string)
    ensures |version| == 3 ==> r == version + ".0"
    ensures |version| != 3 ==> r == version
    ensures |r| != 3
  {
    if |version| == 3 then version + ".0" else version
  }

  /** The version is a prefix of its padded form, and padding is idempotent. */
  lemma SemanticVersionStable(version: string)
    ensures version <= SemanticVersion(version)
    ensures SemanticVersion(SemanticVersion(version)) == SemanticVersion(version)
  {
  }

  /** The number of graph commands the network `before` hook sends, one reply each. */
  const SetupCommands := 5

  /** The hook after `arrivals` messages: released (done called) after `consumed`
      of them, or still waiting with the counter at `remaining`. */
  datatype Countdown = Released(consumed: nat) | Pending(remaining: int)

  /**
   `waitFor -= 1; if (waitFor) re-arm else done()` over `arrivals` messages,
   starting from `waitFor`. Only the exact value zero releases the hook.
   */
  function WaitFor(waitFor: int, arrivals: nat): (r: Countdown)
    ensures waitFor >= 1 && arrivals >= waitFor ==> r == Released(waitFor)
    ensures waitFor >= 1 && arrivals < waitFor ==> r == Pending(waitFor - arrivals)
    ensures waitFor <= 0 ==> r == Pending(waitFor - arrivals)
    decreases arrivals
  {
    if arrivals == 0 then Pending(waitFor)
    else if waitFor - 1 == 0 then Released(1)
    else match WaitFor(waitFor - 1, arrivals - 1)
      case Released(n) => Released(n + 1)
      case Pending(k) => Pending(k)
  }

  /** The network hook calls `done` once, exactly when the fifth reply arrives;
      replies after that are not counted. */
  lemma NetworkSetupReleasesAtFive(arrivals: nat)
    ensures WaitFor(SetupCommands, arrivals).Released? <==> arrivals >= 5
    ensures WaitFor(SetupCommands, arrivals).Released? ==> WaitFor(SetupCommands, arrivals).consumed == 5
  {
  }
}

=== FILE: supervisor.dfy ===
/**
 The connection test's bounded retry: the client connects, and every
 `connectFailed` decrements a counter of tries; when it reaches zero the
 listeners are removed and `done(err)` is called, otherwise another connect is
 scheduled 100 ms later. The first `connect` removes the failure handler and
 calls `done()`. The socket itself and the timer are not modelled: each reply
 of the client is an element of a sequence, answering the latest connect call.
 (src/WebSocket.js lines 26-58)
 */
module Supervisor {
  import opened Results

  /** The starting value of the tries counter. */
  const MaxTries := 10

  /** The client's answer to one connect call. */
  datatype Reply = Connected | ConnectFailed(err: string)

  /** Where the connection test stands. `calls` counts connect calls made. */
  datatype Verdict =
    | ServerFailed(err: string)            // startServer reported an error: done(err), no connect
    | Established(calls: nat)              // done() after the calls-th connect succeeded
    | GaveUp(err: string, calls: nat)      // done(err) with the last failure
    | Waiting(calls: nat)                  // the latest connect call is unanswered

  /** `done` has been called for this verdict (exactly once; no handler survives it). */
  predicate CallsDone(v: Verdict) {
    !v.Waiting?
  }

  /** All of the first `n` replies are failures. */
  predicate FailuresFirst(replies: seq<Reply>, n: nat) {
    n <= |replies| && forall i :: 0 <= i < n ==> replies[i].ConnectFailed?
  }

  /**
   The retry loop from a counter value `tries` and `calls` connect calls made,
   consuming replies in order. The counter follows JavaScript: `tries -= 1`
   then `if (!tries)`, so only the exact value zero stops it.
   */
  function Retry(tries: int, calls: nat, replies: seq<Reply>): (v: Verdict)
    requires calls > 0
    ensures !v.ServerFailed?
    ensures v.Established? || v.Waiting? ==> calls <= v.calls <= calls + |replies|
    ensures v.GaveUp? ==> calls <= v.calls <= calls + |replies| - 1
    ensures tries >= 1 ==> v.calls <= calls + tries - 1
    ensures v.GaveUp? ==> tries >= 1 && v.calls == calls + tries - 1
    decreases |replies|
  {
    if |replies| == 0 then Waiting(calls)
    else
      match replies[0]
      case Connected => Established(calls)
      case ConnectFailed(e) =>
        if tries - 1 == 0 then GaveUp(e, calls)
        else Retry(tries - 1, calls + 1, replies[1..])
  }

  /** The whole connection test: start the server, then connect with ten tries. */
  function ConnectTest(startError: Option<string>, replies: seq<Reply>): (v: Verdict)
    ensures startError.Some? <==> v.ServerFailed?
    ensures startError.Some? ==> v == ServerFailed(startError.value)
    ensures !v.ServerFailed? ==> 1 <= v.calls <= MaxTries
  {
    if startError.Some? then ServerFailed(startError.value)
    else Retry(MaxTries, 1, replies)
  }

  /** A counter started at `tries >= 1` gives up exactly when the first `tries`
      replies all fail, with the last of those errors; it connects exactly when a
      success comes before that, on the call that success answers; and it is
      still waiting exactly when fewer than `tries` replies came, all failures. */
  lemma {:induction false} RetryCharacterized(tries: nat, calls: nat, replies: seq<Reply>)
    requires tries >= 1 && calls > 0
    ensures Retry(tries, calls, replies).GaveUp? <==> FailuresFirst(replies, tries)
    ensures FailuresFirst(replies, tries) ==>
              Retry(tries, calls, replies) == GaveUp(replies[tries - 1].err, calls + tries - 1)
    ensures forall k :: 0 <= k < tries && FailuresFirst(replies, k) && k < |replies| && replies[k].Connected?
              ==> Retry(tries, calls, replies) == Established(calls + k)
    ensures Retry(tries, calls, replies).Established? ==>
              var k := Retry(tries, calls, replies).calls - calls;
              0 <= k < tries && k < |replies| && FailuresFirst(replies, k) && replies[k].Connected?
    ensures Retry(tries, calls, replies).Waiting? <==> |replies| < tries && FailuresFirst(replies, |replies|)
    decreases |replies|
  {
    if |replies| > 0 && replies[0].ConnectFailed? && tries > 1 {
      var rest := replies[1..];
      RetryCharacterized(tries - 1, calls + 1, rest);
      FailuresFirstShift(replies, tries);
      if FailuresFirst(replies, tries) {
        assert rest[tries - 2] == replies[tries - 1];
      }
      forall k | 0 <= k < tries && FailuresFirst(replies, k) && k < |replies| && replies[k].Connected?
        ensures Retry(tries, calls, replies) == Established(calls + k)
      {
        FailuresFirstShift(replies, k);
        assert rest[k - 1] == replies[k];
      }
    }
    RetryOnlyConnectsOnSuccess(tries, calls, replies);
  }

  /** The converse half: a connection answers a successful reply preceded only
      by failures, and waiting means fewer than `tries` replies, all failures. */
  lemma {:induction false} RetryOnlyConnectsOnSuccess(tries: nat, calls: nat, replies: seq<Reply>)
    requires tries >= 1 && calls > 0
    ensures Retry(tries, calls, replies).Established? ==>
              var k := Retry(tries, calls, replies).calls - calls;
              0 <= k < tries && k < |replies| && FailuresFirst(replies, k) && replies[k].Connected?
    ensures Retry(tries, calls, replies).Waiting? <==> |replies| < tries && FailuresFirst(replies, |replies|)
    decreases |replies|
  {
    if |replies| > 0 && replies[0].ConnectFailed? && tries > 1 {
      var rest := replies[1..];
      RetryOnlyConnectsOnSuccess(tries - 1, calls + 1, rest);
      var v := Retry(tries, calls, replies);
      if v.Established? {
        var k := v.calls - calls;
        FailuresFirstShift(replies, k);
        assert rest[k - 1] == replies[k];
      }
      FailuresFirstShift(replies, |replies|);
    }
  }

  /** After a first failure, `n` leading failures are `n - 1` leading failures
      of the remaining replies. */
  lemma FailuresFirstShift(replies: seq<Reply>, n: nat)
    requires |replies| > 0 && replies[0].ConnectFailed? && n >= 1
    ensures FailuresFirst(replies, n) <==> FailuresFirst(replies[1..], n - 1)
  {
    if FailuresFirst(replies[1..], n - 1) {
      forall i | 0 <= i < n ensures replies[i].ConnectFailed? {
        if i > 0 { assert replies[i] == replies[1..][i - 1]; }
      }
    }
  }

  /** Once `done` has been called, later replies change nothing: the handlers
      are gone, so no second `done` can happen. */
  lemma {:induction false} RetryIgnoresLaterReplies(tries: int, calls: nat, replies: seq<Reply>, more: seq<Reply>)
    requires calls > 0
    requires CallsDone(Retry(tries, calls, replies))
    ensures Retry(tries, calls, replies + more) == Retry(tries, calls, replies)
    decreases |replies|
  {
    assert |replies| > 0;
    assert (replies + more)[0] == replies[0];
    if replies[0].ConnectFailed? && tries - 1 != 0 {
      assert (replies + more)[1..] == replies[1..] + more;
      RetryIgnoresLaterReplies(tries - 1, calls + 1, replies[1..], more);
    }
  }

  /** Giving up takes exactly ten connect calls, all of them refused, and
      reports the tenth refusal. */
  lemma GiveUpAfterTenCalls(replies: seq<Reply>)
    requires ConnectTest(None, replies).GaveUp?
    ensures FailuresFirst(replies, MaxTries)
    ensures ConnectTest(None, replies) == GaveUp(replies[MaxTries - 1].err, MaxTries)
  {
    RetryCharacterized(MaxTries, 1, replies);
  }
}

=== FILE: values.dfy ===
/** Success/failure and optional values used across the model. */
module Results {

  datatype Option<+T> = None | Some(value: T)

  datatype Result<+T, +E> = Ok(value: T) | Err(error: E)
}

/**
 JSON values as produced by `JSON.parse` and as written in the fixture object
 literals, together with JavaScript's `delete` operator on them.
 */
module Values {
  import opened Results

  /** A parsed JSON value. Object keys are unordered, as deep equality treats them. */
  datatype Json =
    | JNull
    | JBool(b: bool)
    | JNum(n: int)
    | JStr(s: string)
    | JArr(items: seq<Json>)
    | JObj(fields: map<string, Json>)

  /** True when `v` is an object that owns the key `k` (so `v[k]` is not undefined). */
  predicate HasKey(v: Json, k: string) {
    v.JObj? && k in v.fields
  }

  /** The value `v` with every key of `ks` removed when it is an object; any other value as is. */
  function Without(v: Json, ks: set<string>): Json {
    if v.JObj? then JObj(v.fields - ks) else v
  }

  /** `delete v[k]`: removes an own key of an object and leaves every other key
      and every non-object value alone. */
  function Delete(v: Json, k: string): (r: Json)
    ensures !HasKey(r, k)
    ensures r.JObj? <==> v.JObj?
    ensures forall j :: j != k ==> (HasKey(r, j) <==> HasKey(v, j))
    ensures forall j :: j != k && HasKey(v, j) ==> HasKey(r, j) && r.fields[j] == v.fields[j]
    ensures !v.JObj? ==> r == v
  {
    match v
    case JObj(m) => JObj(m - {k})
    case _ => v
  }

  /** The statements `delete v[ks[0]]; delete v[ks[1]]; ...` in order. */
  function DeleteAll(v: Json, ks: seq<string>): (r: Json)
    ensures r == Without(v, set k | k in ks)
    decreases |ks|
  {
    if |ks| == 0 then v else DeleteAll(Delete(v, ks[0]), ks[1..])
  }

  /** The decimal digits of a natural number, most significant first. */
  function NatDigits(n: nat): (r: string)
    ensures |r| > 0 && forall i :: 0 <= i < |r| ==> '0' <= r[i] <= '9'
    decreases n
  {
    var d := ['0' + (n % 10) as char];
    if n < 10 then d else NatDigits(n / 10) + d
  }

  /** Array elements joined by commas, as `Array.prototype.join` does it. */
  function JoinWithCommas(parts: seq<string>): string {
    if |parts| == 0 then "" else if |parts| == 1 then parts[0]
    else parts[0] + "," + JoinWithCommas(parts[1..])
  }

  /**
   `String(v)` does not throw. A parsed object has no callable own property,
   so one that owns a `toString` key hides `Object.prototype.toString`; the
   conversion then falls back to `valueOf`, gets the object back, and throws a
   `TypeError`. An array converts each non-null element the same way.
   */
  predicate Printable(v: Json)
    decreases v
  {
    match v
    case JObj(fields) => "toString" !in fields
    case JArr(items) => forall i :: 0 <= i < |items| ==> Printable(items[i])
    case _ => true
  }

  /**
   `String(v)`, the string JavaScript makes of a value, which is what
   `new Error(v)` keeps as its message, or `None` when the conversion throws.
   Every convertible object, whatever its other keys, becomes the same text; an
   array is its elements joined by commas, with `null` elements left empty.
   */
  function JsString(v: Json): (r: Option<string>)
    ensures r.Some? <==> Printable(v)
    ensures v.JObj? && r.Some? ==> r.value == "[object Object]"
    ensures v.JStr? ==> r == Some(v.s)
    ensures v.JArr? && |v.items| == 0 ==> r == Some("")
    decreases v
  {
    match v
    case JNull => Some("null")
    case JBool(b) => Some(if b then "true" else "false")
    case JNum(n) => Some(if n < 0 then "-" + NatDigits(-n) else NatDigits(n))
    case JStr(s) => Some(s)
    case JArr(items) =>
      var parts := seq(|items|, i requires 0 <= i < |items| =>
                         if items[i].JNull? then Some("") else JsString(items[i]));
      assert forall i :: 0 <= i < |items| ==> (parts[i].Some? <==> Printable(items[i]));
      if forall i :: 0 <= i < |parts| ==> parts[i].Some? then
        Some(JoinWithCommas(seq(|parts|, i requires 0 <= i < |parts| =>
                                  if parts[i].Some? then parts[i].value else "")))
      else None
    case JObj(fields) => if "toString" in fields then None else Some("[object Object]")
  }
}

=== FILE: wire.dfy ===
/**
 The wire format of the protocol: outbound encoding with the shared secret,
 inbound decoding with its basic validation and payload-secret removal, the
 schema identifier of a packet and the protocol/command comparison.
 (src/WebSocket.js lines 71-106)
 */
module Wire {
  import opened Results
  import opened Values

  /** Key of the shared secret, at the top level and inside `payload`. */
  const SecretKey := "secret"

  /** Top-level keys with a dedicated field in `Msg`. */
  const HeaderKeys: set<string> := {"protocol", "command", "payload"}

  /**
   A protocol message. `rest` holds every other top-level key of the JSON
   object (a `secret`, a `requestId`, ...). Expectations use the same shape.
   */
  datatype Msg = Msg(protocol: string, command: string, payload: Json, rest: map<string, Json>)

  /** An inbound WebSocket frame. `Text(None)` is a text frame `JSON.parse` rejects. */
  datatype Frame = Text(parsed: Option<Json>) | Binary

  /** Every way a single inbound message can end a scenario. */
  datatype Failure =
    | NotText                              // utf8Data is not a string
    | MalformedJson                        // JSON.parse threw
    | MissingHeader                        // protocol or command is not a string
    | MissingPayload                       // `delete data.payload.secret` on undefined/null
    | SchemaViolation(schema: string)      // the schema validator rejected the message
    | SecretInMessage                      // a top-level secret came back
    | SecretInPayload                      // a payload secret came back
    | UnexpectedError(detail: Json)        // the runtime reported an error nobody expected
    | WrongPacket(gotSchema: string, wantSchema: string)  // schema ids of message and expectation differ
    | PayloadMismatch(got: Json, want: Json)  // normalised payloads are not deeply equal

  /** A message that is the image of a JSON object: no header key hides in `rest`,
      and the payload can have a key deleted from it. */
  predicate WellFormed(m: Msg) {
    && m.payload != JNull
    && forall k :: k in m.rest ==> k !in HeaderKeys
  }

  /** The JSON object a message stands for. */
  function ToJson(m: Msg): Json {
    JObj(m.rest["protocol" := JStr(m.protocol)]["command" := JStr(m.command)]["payload" := m.payload])
  }

  /** The message object a caller's `send` writes: the secret is added to the
      payload (overriding a caller-supplied one) and at the top level. An absent
      secret is `undefined`, which `JSON.stringify` drops, so the caller's own
      payload secret disappears too. */
  function Encode(protocol: string, command: string, payload: map<string, Json>, secret: Option<string>): (r: Json)
    ensures r.JObj?
    ensures r.fields.Keys == HeaderKeys + (if secret.Some? then {SecretKey} else {})
    ensures r.fields["protocol"] == JStr(protocol) && r.fields["command"] == JStr(command)
    ensures secret.Some? ==> r.fields[SecretKey] == JStr(secret.value)
    ensures r.fields["payload"].JObj?
    ensures HasKey(r.fields["payload"], SecretKey) <==> secret.Some?
    ensures secret.Some? ==> r.fields["payload"].fields[SecretKey] == JStr(secret.value)
    ensures forall k :: k != SecretKey ==> (HasKey(r.fields["payload"], k) <==> k in payload)
    ensures forall k :: k != SecretKey && k in payload ==> HasKey(r.fields["payload"], k) && r.fields["payload"].fields[k] == payload[k]
  {
    var inner := if secret.Some? then payload[SecretKey := JStr(secret.value)] else payload - {SecretKey};
    var outer := map["protocol" := JStr(protocol), "command" := JStr(command), "payload" := JObj(inner)];
    JObj(if secret.Some? then outer[SecretKey := JStr(secret.value)] else outer)
  }

  /** `${protocol}/output/${command}`: the schema a packet is validated against. */
  function SchemaId(m: Msg): (id: string)
    ensures |id| == |m.protocol| + 8 + |m.command|
    ensures id[..|m.protocol|] == m.protocol
    ensures id[|id| - |m.command|..] == m.command
  {
    m.protocol + "/output/" + m.command
  }

  /** Two packets match when they agree on protocol and command; matching
      packets are validated against the same schema. */
  predicate Matches(msg: Msg, expected: Msg)
    ensures Matches(msg, expected) ==> SchemaId(msg) == SchemaId(expected)
  {
    msg.protocol == expected.protocol && msg.command == expected.command
  }

  /**
   The basic validation of an inbound frame and the removal of the payload
   secret: a text frame holding a JSON object whose protocol and command are
   strings and whose payload is neither missing nor null.
   */
  function Decode(f: Frame): (r: Result<Msg, Failure>)
    ensures r.Ok? ==> WellFormed(r.value) && !HasKey(r.value.payload, SecretKey)
    ensures r.Ok? ==> f.Text? && f.parsed.Some? && HasKey(f.parsed.value, "payload")
    ensures r.Ok? ==> var j := f.parsed.value;
                      && ToJson(r.value.(payload := j.fields["payload"])) == j
                      && r.value.payload == Delete(j.fields["payload"], SecretKey)
    ensures r.Err? ==> r.error in {NotText, MalformedJson, MissingHeader, MissingPayload}
  {
    match f
    case Binary => Err(NotText)
    case Text(None) => Err(MalformedJson)
    case Text(Some(j)) =>
      if !(j.JObj? && "protocol" in j.fields && j.fields["protocol"].JStr?
           && "command" in j.fields && j.fields["command"].JStr?) then
        Err(MissingHeader)
      else if "payload" !in j.fields || j.fields["payload"] == JNull then
        Err(MissingPayload)
      else
        var m := Msg(j.fields["protocol"].s, j.fields["command"].s, j.fields["payload"], j.fields - HeaderKeys);
        assert ToJson(m) == j;
        Ok(m.(payload := Delete(m.payload, SecretKey)))
  }

  /** Decoding the JSON of a well-formed message gives the message back, minus
      its payload secret. */
  lemma DecodeToJson(m: Msg)
    requires WellFormed(m)
    ensures Decode(Text(Some(ToJson(m)))) == Ok(m.(payload := Delete(m.payload, SecretKey)))
  {
    var j := ToJson(m);
    assert j.fields - HeaderKeys == m.rest;
  }

  /** What a passive observer decodes from an outbound message: the caller's
      payload without any secret, and the top-level secret when one is configured. */
  lemma EncodeDecode(protocol: string, command: string, payload: map<string, Json>, secret: Option<string>)
    ensures Decode(Text(Some(Encode(protocol, command, payload, secret))))
         == Ok(Msg(protocol, command, JObj(payload - {SecretKey}),
                   if secret.Some? then map[SecretKey := JStr(secret.value)] else map[]))
  {
    var j := Encode(protocol, command, payload, secret);
    var inner := j.fields["payload"];
    assert inner.fields - {SecretKey} == payload - {SecretKey};
    assert j.fields - HeaderKeys == (if secret.Some? then map[SecretKey := JStr(secret.value)] else map[]);
  }

  /** When no protocol name contains '/', equal schema ids mean equal protocol
      and command: the first '/' of the id ends the protocol. */
  lemma {:induction false} SchemaIdInjective(a: Msg, b: Msg)
    requires '/' !in a.protocol && '/' !in b.protocol
    requires SchemaId(a) == SchemaId(b)
    ensures Matches(a, b)
  {
    var id := SchemaId(a);
    if |a.protocol| < |b.protocol| {
      FirstSlash(a.protocol, a.command);
      FirstSlash(b.protocol, b.command);
      assert false;
    } else if |b.protocol| < |a.protocol| {
      FirstSlash(a.protocol, a.command);
      FirstSlash(b.protocol, b.command);
      assert false;
    }
    assert a.protocol == id[..|a.protocol|] == b.protocol;
    assert a.command == id[|id| - |a.command|..] == b.command;
  }

  /** In `p + "/output/" + c` the character after the protocol is '/',
      and every earlier one is the protocol's own. */
  lemma FirstSlash(p: string, c: string)
    ensures (p + "/output/" + c)[|p|] == '/'
    ensures forall i :: 0 <= i < |p| ==> (p + "/output/" + c)[i] == p[i]
  {
  }

  /** Without the '/'-free restriction the schema-id comparison confuses
      different packets: `a/output/b` + `c` and `a` + `b/output/c` share an id. */
  lemma SchemaIdCollision()
    ensures var a := Msg("a/output/b", "c", JObj(map[]), map[]);
            var b := Msg("a", "b/output/c", JObj(map[]), map[]);
            SchemaId(a) == SchemaId(b) && !Matches(a, b)
  {
  }
}
